=== FILE: README.md ===
# Landing-page section logic, modelled in Dafny

This project models the small amount of behaviour in three React sections of
an educational-consulting landing page. The rest of those sections is
markup, styling and animation. The three sections are:

- **Services overview** (`ServicesOverviewSection.tsx`). A fixed catalog
  of six services is shown as a grid of cards beside a phone mockup. One
  state value, `activeId`, drives both views. Hovering a card stores that
  service's id. The card whose id equals `activeId` is drawn as active. The
  mockup shows `SERVICES.find(s => s.id === activeId) || SERVICES[0]`,
  with one row per feature. The cards tint themselves with `hexToRgba`,
  which reads a `#RRGGBB` colour through `parseInt` and JavaScript's 32-bit
  `>>` and `&`. Icons are looked up by name, with `Zap` as the default.
- **Vertical timeline** (`VerticalTimeline.tsx`). A list is drawn as one
  column, or with `columns === 2` it is cut at `ceil(n / 2)` into a left
  and a right column. Each column numbers its rows from 0 and picks a row's
  accent as `accentColors[idx % 6]`.
- **Study abroad** (`StudyAbroadSection.tsx`). It has three `number | null`
  hover slots. Hover-start and pointer-down store a card's index. Hover-end
  and pointer-up clear the slot. A marquee track holds the country list
  twice, and its `paused` class is added on enter or press and removed on
  leave or release. The twelve partner universities go into a two-column
  timeline.

The model is functional: immutable datatypes, pure functions and lemmas.

- `wrappers.dfy` defines `Option`.
- `indexed_map.dfy` defines `MapIndexed`, which is `Array.prototype.map`
  with the element index.
- `hex_colour.dfy` models `hexToRgba` one JavaScript step at a time: the
  first `#` removed, the longest hex-digit prefix, NaN, ToInt32, the
  sign-propagating shift, and the mask.
- `services_overview.dfy`, `vertical_timeline.dfy` and `study_abroad.dfy`
  each model one source file.

Two behaviours of the code are worth stating plainly. First, `setActiveId`
has no guard: an id outside the catalog would put the mockup on the first
service and leave no card active (`UnknownIdFallsBack`). The cards only pass
catalog ids, so this never arises in the section itself. Second, `hexToRgba`
neither checks the length of its input nor falls back to a default colour:
`#FFF` reads as (0, 15, 255), the leading byte of an eight-digit colour lies
above the three bytes that are read, text that stops being hex part-way is
read up to the stop, and text with no leading hex digit gives NaN, hence
(0, 0, 0).

## Model

| member | source | states |
|---|---|---|
| HexColour.StripHash | src/components/ServicesOverviewSection.tsx:125 | `replace('#', '')` removes only the first `#`, keeping everything before and after it; a string without `#` is unchanged |
| HexColour.HashIndex | src/components/ServicesOverviewSection.tsx:125 | the position of the first `#`, or the length when there is none: no `#` comes before it |
| HexColour.HexRunLength | src/components/ServicesOverviewSection.tsx:126 | `parseInt` reads the longest prefix of hex digits: every character before the stop is a digit, the character at the stop is not |
| HexColour.HexValue | src/components/ServicesOverviewSection.tsx:126 | n hex digits denote a number below 16^n |
| HexColour.ParseIntHex | src/components/ServicesOverviewSection.tsx:126 | for a text in `ParsedExactly`, `parseInt(h, 16)` is NaN exactly when `h` does not start with a hex digit; otherwise it is the value of the longest leading run of hex digits, a number below 16^13 (exact in a double) |
| HexColour.ToInt32 | src/components/ServicesOverviewSection.tsx:127-129 | the operand conversion of `>>` and `&`: a signed 32-bit value congruent to the number modulo 2^32, and 0 for NaN |
| HexColour.ShiftRight | src/components/ServicesOverviewSection.tsx:127-128 | `x >> bits` on a 32-bit value rounds towards minus infinity: `r * 2^bits <= x < (r + 1) * 2^bits` |
| HexColour.Mask255 | src/components/ServicesOverviewSection.tsx:127-129 | `x & 255` is in [0, 255] and agrees with `x` modulo 256 |
| HexColour.ChannelBits | src/components/ServicesOverviewSection.tsx:126-129 | `(ToInt32(v) >> k) & 255` is byte k/8 of the parsed number itself: the 32-bit wrap and the sign do not reach bits 0 to 23 |
| HexColour.HexToRgba | src/components/ServicesOverviewSection.tsx:124-131 | each channel is in [0, 255]; red, green and blue are bytes 2, 1 and 0 of the parsed number; NaN gives black; alpha is passed through |
| HexColour.HexToRgbaDefault | src/components/ServicesOverviewSection.tsx:124 | without an alpha argument the alpha is 1 and the channels are those of `hexToRgba` |
| HexColour.ParseHashDigits | src/components/ServicesOverviewSection.tsx:125-126 | a `#` followed by up to 13 hex digits parses to the number those digits denote |
| HexColour.SixDigitChannels | src/components/ServicesOverviewSection.tsx:124-131 | for `#RRGGBB`, red is RR, green GG and blue BB, and alpha is the argument |
| HexColour.FormatRoundTrip | src/components/ServicesOverviewSection.tsx:124-131 | writing three bytes as `#RRGGBB` and reading the string back with `hexToRgba` gives the same bytes |
| HexColour.BlueExample | src/components/ServicesOverviewSection.tsx:124-131 | `#2563EB` is (37, 99, 235) |
| HexColour.WhiteExample | src/components/ServicesOverviewSection.tsx:124-131 | `#FFFFFF` is (255, 255, 255) |
| HexColour.ShortFormExample | src/components/ServicesOverviewSection.tsx:124-131 | `#FFF` is not expanded as CSS shorthand: it reads as 0xFFF, which is (0, 15, 255) |
| HexColour.EightDigitChannels | src/components/ServicesOverviewSection.tsx:124-131 | `#RRGGBBAA` is not read as CSS's colour with alpha: RR lies above the three bytes that `>>` and `& 255` select, the sign the 32-bit wrap gives it does not reach bits 0 to 23, and GG, BB, AA become red, green and blue |
| HexColour.EightDigitExample | src/components/ServicesOverviewSection.tsx:124-131 | `#FF000080` is (0, 0, 128) |
| HexColour.TrailingTextExample | src/components/ServicesOverviewSection.tsx:124-131 | `#12zz` is read up to the first non-digit, as 0x12, which is (0, 0, 18) |
| HexColour.NonAsciiStartExample | src/components/ServicesOverviewSection.tsx:124-131 | a text starting with a non-digit that `parseInt` does not skip, such as `#é00000`, gives NaN and so (0, 0, 0) |
| HexColour.NoDigitsExample | src/components/ServicesOverviewSection.tsx:124-131 | text with no leading hex digit parses to NaN, which gives (0, 0, 0) |
| ServicesOverview.CatalogIds | src/components/ServicesOverviewSection.tsx:32-93 | the catalog holds six services with ids 1 to 6 in order, so it is non-empty and no two ids are equal |
| ServicesOverview.CatalogColours | src/components/ServicesOverviewSection.tsx:38-88 | every catalog colour is a `#RRGGBB` colour |
| ServicesOverview.GetIcon | src/components/ServicesOverviewSection.tsx:97-108 | a registered name gets the icon registered under it, and only that name gets that icon; any other name gets `Zap` |
| ServicesOverview.IconRoundTrip | src/components/ServicesOverviewSection.tsx:97-108 | each of the seven icons is returned for its own name |
| ServicesOverview.CatalogIcons | src/components/ServicesOverviewSection.tsx:37-87 | every catalog icon name is registered and none falls back to `Zap`; no two services share an icon |
| ServicesOverview.FindIndex | src/components/ServicesOverviewSection.tsx:285 | `find` returns the first entry with the id; it returns nothing exactly when no entry carries the id |
| ServicesOverview.ActiveService | src/components/ServicesOverviewSection.tsx:285 | the active service is always a catalog entry; when some entry carries `activeId` it is the first such entry, as `find` returns, and otherwise it is the first entry of the catalog; with distinct ids it is the entry carrying `activeId` |
| ServicesOverview.InitialSelection | src/components/ServicesOverviewSection.tsx:284-285 | the initial `activeId` is a catalog id; the mockup shows the first service, and with distinct ids the first card is the only active one |
| ServicesOverview.HoverCard | src/components/ServicesOverviewSection.tsx:142 | mouse-enter on a card stores a catalog id, and with distinct ids that card's service becomes active whatever was active before |
| ServicesOverview.ActiveCards | src/components/ServicesOverviewSection.tsx:306 | `isActive={activeId === service.id}`: a card is active exactly when it carries `activeId`; none is active exactly when no catalog entry carries it; with distinct ids at most one is |
| ServicesOverview.ExactlyOneActive | src/components/ServicesOverviewSection.tsx:306 | while `activeId` is a catalog id and ids are distinct, exactly one card is drawn active, and it is the card of the service the mockup shows |
| ServicesOverview.UnknownIdFallsBack | src/components/ServicesOverviewSection.tsx:285 | an id no service carries leaves no card active and puts the mockup on the first service |
| ServicesOverview.ReplayInvariant | src/components/ServicesOverviewSection.tsx:284-306 | after any sequence of card hovers, `activeId` is a catalog id, exactly one card is active, and the mockup shows the last hovered service, or the first service before any hover |
| ServicesOverview.Labels | src/components/ServicesOverviewSection.tsx:259 | the texts of the mockup rows, one per row, in order |
| ServicesOverview.FeatureRows | src/components/ServicesOverviewSection.tsx:250-261 | the mockup has one row per feature, its texts are the features in catalog order, row i has key i, and every dot has the service colour |
| ServicesOverview.PhoneMockup | src/components/ServicesOverviewSection.tsx:191-324 | the mockup (lines 191-261) shows the service's id key, background, tagline, description, features in order with the service colour, and its registered icon (`Zap` for an unregistered name); the caption below it (line 324) is the service title followed by " Portal" |
| ServicesOverview.MockupFollowsHover | src/components/ServicesOverviewSection.tsx:191-261 | after a card is hovered, the mockup shows that service's id key, tagline, description, features, icon and title caption |
| ServicesOverview.InitialMockup | src/components/ServicesOverviewSection.tsx:250-261 | before any hover the mockup lists the first service's three features under the `Brain` icon |
| IndexedMap.MapIndexed | src/components/ServicesOverviewSection.tsx:250 | `map((x, i) => …)` keeps the length and puts f(i, x_i) at position i; the same `map` builds the timeline rows (`VerticalTimeline.tsx:15`) and the marquee entries (`StudyAbroadSection.tsx:135`) |
| VerticalTimeline.Accent | src/components/VerticalTimeline.tsx:11-26 | any row number picks an entry of the six-colour palette, and row i < 6 takes entry i |
| VerticalTimeline.AccentPeriodic | src/components/VerticalTimeline.tsx:26 | accents repeat with period six |
| VerticalTimeline.Column | src/components/VerticalTimeline.tsx:15-28 | a column shows every item once, in order; row i has accent i and key (item, i) |
| VerticalTimeline.Texts | src/components/VerticalTimeline.tsx:31 | the texts of a column's rows, one per row, in order |
| VerticalTimeline.ColumnsOrDefault | src/components/VerticalTimeline.tsx:40 | `columns = 1`: an absent prop counts as one column, a passed value is used as given |
| VerticalTimeline.Half | src/components/VerticalTimeline.tsx:42 | `Math.ceil(n / 2)` is the least h with 2h >= n |
| VerticalTimeline.Arrange | src/components/VerticalTimeline.tsx:40-62 | two columns exactly when `columns === 2`; then left ++ right is the list and the left has ceil(n/2) items; otherwise one column holds the list unchanged |
| VerticalTimeline.SplitBalanced | src/components/VerticalTimeline.tsx:42-44 | the left column is as long as the right one, or one longer |
| VerticalTimeline.SplitEdgeCases | src/components/VerticalTimeline.tsx:42-44 | no items gives two empty columns; one item goes left and the right stays empty |
| VerticalTimeline.DefaultIsOneColumn | src/components/VerticalTimeline.tsx:40 | without a `columns` prop the list is one column, unchanged |
| VerticalTimeline.Render | src/components/VerticalTimeline.tsx:40-63 | two rendered columns exactly when `columns === 2`, one otherwise; reading them left to right gives back the list, with nothing dropped, repeated or reordered |
| VerticalTimeline.RightColumnRestarts | src/components/VerticalTimeline.tsx:49-52 | row j of the right column shows item ceil(n/2)+j with accent j: numbering restarts per column |
| StudyAbroad.SlotAfter | src/components/StudyAbroadSection.tsx:85-88 | hover-start and pointer-down store the card's index; hover-end and pointer-up clear the slot, whichever card held it |
| StudyAbroad.Step | src/components/StudyAbroadSection.tsx:85-88 | a stat-card event sets `hoveredIndex` as that card's handler does, and a feature-card event (lines 158-161) sets `hoveredFeatureIndex` likewise, by `SlotAfter`; each leaves the other slot alone, and no event writes the university slot |
| StudyAbroad.Highlighted | src/components/StudyAbroadSection.tsx:93-148 | `hoveredIndex === index` (line 93) and `hoveredFeatureIndex === index` (line 148): an empty slot highlights no card, a filled one exactly the card at its index |
| StudyAbroad.HighlightedCards | src/components/StudyAbroadSection.tsx:93-102 | card i is highlighted exactly when the slot holds i, so at most one card of a row is highlighted |
| StudyAbroad.StatGestures | src/components/StudyAbroadSection.tsx:85-102 | starting or pressing on stat card i highlights exactly that card; ending or releasing on any stat card leaves none highlighted |
| StudyAbroad.FeatureGestures | src/components/StudyAbroadSection.tsx:147-165 | starting or pressing on feature card i highlights exactly that card; ending or releasing on any feature card leaves none highlighted |
| StudyAbroad.RunInvariant | src/components/StudyAbroadSection.tsx:36-39 | along any run the university slot stays empty, and each slot only holds the index of an existing card of its own row |
| StudyAbroad.FeatureEventsLeaveStats | src/components/StudyAbroadSection.tsx:158-161 | any number of feature-card events leave the stat slot as it was |
| StudyAbroad.MarqueeItems | src/components/StudyAbroadSection.tsx:135 | the track is twice as long as the list, each half is the list, and entry i equals entry i + n |
| StudyAbroad.MarqueeOfCountries | src/components/StudyAbroadSection.tsx:8-10 | the eight destinations give a sixteen-entry track whose second half starts again at "UK" |
| StudyAbroad.MarqueeKeys | src/components/StudyAbroadSection.tsx:135-136 | key i is (entry i of the doubled list, i), standing for `${country}-${i}`; the keys are pairwise distinct although every country appears twice |
| StudyAbroad.TrackStep | src/components/StudyAbroadSection.tsx:129-132 | enter and press add `paused`, leave and release remove it, and no other class changes |
| StudyAbroad.Paused | src/components/StudyAbroadSection.tsx:124 | the `.marquee-track.animate.paused` rule: without `paused` the track runs; on a track carrying `marquee-track` and `animate`, it stops exactly when `paused` is present |
| StudyAbroad.PausedIffLastEnter | src/components/StudyAbroadSection.tsx:123-134 | the marquee is paused exactly when the last event was an enter or a press; it runs before any event |
| StudyAbroad.PauseIdempotent | src/components/StudyAbroadSection.tsx:129-131 | a second enter or press leaves the track as the first one did |
| StudyAbroad.UniversitiesSplit | src/components/StudyAbroadSection.tsx:21-34 | the twelve partner universities split into six on the left and six on the right, in list order |

## Left out

- Animation: framer-motion springs, tilt transforms, stagger delays, durations and `AnimatePresence`. These are floating-point timing, not state.
- The mouse-tilt computation on the service cards. It is floating-point arithmetic over element geometry.
- Markup, Tailwind classes, inline styles and the keyframes stylesheet. Icons are opaque tokens. The `paused` stylesheet rule is modelled only as the predicate `Paused`.
- The string `rgba(r, g, b, a)` that `hexToRgba` returns. The model returns the four numbers it interpolates.
- HexColour.HexToRgba: requires that the hash-stripped text does not start with ECMAScript white space or a line terminator, a sign or a `0x` prefix (`StartsPlain`, part of `ParsedExactly`). `parseInt` skips or interprets those before the digits; any other first character is modelled.
- HexColour.ParseIntHex: requires `ParsedExactly`, so it does not model `parseInt` on a text that starts with white space, a sign or a `0x` prefix (`parseInt(" F", 16)` is 15, `parseInt("-F", 16)` is -15, `parseInt("0x1F", 16)` is 31), nor on more than 13 leading hex digits, where the double may be rounded.
- HexColour.HexToRgba: requires at most 13 leading hex digits (the other half of `ParsedExactly`). That bound is sufficient for the double `parseInt` returns to be exact; beyond it the double may be rounded, which the model does not follow.
- ServicesOverview.GetIcon: requires that the name is not an `Object.prototype` property such as `toString`. Indexing the table with such a name yields a truthy non-icon value and skips the `Zap` default.
- ServicesOverview.ActiveService: requires a non-empty catalog. The source indexes `SERVICES[0]`, and its catalog is a non-empty constant.
- React mechanics: `useState` scheduling and re-rendering. Only the resulting state values are modelled.
- DOM access: `querySelector` and `classList` are modelled as a set of class names on the track.
- The highlight gradients, the feature-card icons and the stat values are rendering data with no behaviour.
- `ScientificEventsSection.tsx` and `StartupsSection.tsx` are static arrays rendered to markup. `StartupsSection.tsx:69` picks a palette entry by position modulo the palette length, the pattern of `VerticalTimeline.Accent`, and its badge shows `index + 1`; neither is modelled separately.
- React keys are modelled as values, not strings: a timeline row's key is the pair (text, index) and a marquee key the pair (country, index), which stand for the template strings the source builds from them.

=== FILE: hex_colour.dfy ===
/** The card tint helper `hexToRgba` of the services overview: it drops the
    first '#', reads the rest with `parseInt(h, 16)` and cuts the number into
    three bytes with JavaScript's 32-bit `>>` and `&`. The model spells out
    each JavaScript step (the longest hex-digit prefix, NaN, ToInt32, the
    sign-propagating shift, the mask) and proves what they add up to. */
module HexColour {

  const TwoTo31: int := 0x8000_0000
  const TwoTo32: int := 0x1_0000_0000

  /** The alpha `hexToRgba` uses when none is passed. */
  const DefaultAlpha: real := 1.0

  /** The four numbers interpolated into `rgba(r, g, b, a)`. */
  datatype Rgba = Rgba(red: int, green: int, blue: int, alpha: real)

  /** What `parseInt(h, 16)` returns. */
  datatype Parsed = Number(value: nat) | NaN

  function Pow(base: nat, e: nat): (p: nat)
    requires base > 0
    ensures p > 0
  {
    if e == 0 then 1 else base * Pow(base, e - 1)
  }

  // ---------------------------------------------------------------------
  // Hex digits

  predicate IsHexDigit(c: char) {
    '0' <= c <= '9' || 'a' <= c <= 'f' || 'A' <= c <= 'F'
  }

  predicate AllHex(s: string) {
    forall i :: 0 <= i < |s| ==> IsHexDigit(s[i])
  }

  /** The value `parseInt` gives one digit; both letter cases count. */
  function DigitValue(c: char): (d: nat)
    requires IsHexDigit(c)
    ensures d < 16
  {
    if '0' <= c <= '9' then c as int - '0' as int
    else if 'a' <= c <= 'f' then c as int - 'a' as int + 10
    else c as int - 'A' as int + 10
  }

  /** The upper-case digit for a value below 16, as the catalog writes colours. */
  function UpperDigit(d: nat): (c: char)
    requires d < 16
    ensures IsHexDigit(c)
    ensures DigitValue(c) == d
  {
    if d < 10 then ('0' as int + d) as char else ('A' as int + d - 10) as char
  }

  /** The number a run of hex digits denotes, most significant digit first. */
  function HexValue(ds: string): (v: nat)
    requires AllHex(ds)
    ensures v < Pow(16, |ds|)
  {
    if |ds| == 0 then 0
    else HexValue(ds[..|ds| - 1]) * 16 + DigitValue(ds[|ds| - 1])
  }

  // ---------------------------------------------------------------------
  // The JavaScript steps

  /** `s.indexOf('#')`, with `|s|` standing for "not found". */
  function HashIndex(s: string): (k: nat)
    ensures k <= |s|
    ensures k < |s| ==> s[k] == '#'
    ensures '#' !in s[..k]
  {
    if |s| == 0 || s[0] == '#' then 0
    else
      var k := 1 + HashIndex(s[1..]);
      assert s[..k] == [s[0]] + s[1..][..k - 1];
      k
  }

  /** `s.replace('#', '')`: a string pattern removes its first occurrence
      only; a string without '#' is returned as it is. */
  function StripHash(s: string): (r: string)
    ensures '#' !in s ==> r == s
    ensures '#' in s ==> exists k :: 0 <= k < |s| && s[k] == '#' && '#' !in s[..k]
                                    && r == s[..k] + s[k + 1..]
  {
    var k := HashIndex(s);
    if k == |s| then
      assert s[..k] == s;
      s
    else
      s[..k] + s[k + 1..]
  }

  /** The length of the longest hex-digit prefix: where `parseInt` stops. */
  function HexRunLength(h: string): (n: nat)
    ensures n <= |h|
    ensures AllHex(h[..n])
    ensures n < |h| ==> !IsHexDigit(h[n])
  {
    if |h| == 0 || !IsHexDigit(h[0]) then 0
    else
      var n := 1 + HexRunLength(h[1..]);
      assert h[..n] == [h[0]] + h[1..][..n - 1];
      n
  }

  /** ECMAScript white space and line terminators, which `parseInt` skips
      before the digits: TAB, LF, VT, FF, CR, the space separators (category
      Zs), LS, PS and the byte order mark. */
  predicate IsJsWhiteSpace(c: char) {
    var u := c as int;
    u == 0x09 || u == 0x0A || u == 0x0B || u == 0x0C || u == 0x0D
    || u == 0x20 || u == 0xA0 || u == 0x1680 || (0x2000 <= u <= 0x200A)
    || u == 0x2028 || u == 0x2029 || u == 0x202F || u == 0x205F
    || u == 0x3000 || u == 0xFEFF
  }

  /** `parseInt(h, 16)` also skips leading white space, accepts a sign and
      a "0x" prefix; the model covers the inputs that start without them. */
  predicate StartsPlain(h: string) {
    |h| == 0 ||
    (!IsJsWhiteSpace(h[0]) && h[0] != '+' && h[0] != '-'
     && !(h[0] == '0' && |h| > 1 && (h[1] == 'x' || h[1] == 'X')))
  }

  /** A hex digit is neither white space nor a sign, nor the `x` of a prefix. */
  lemma DigitIsPlain(c: char)
    requires IsHexDigit(c)
    ensures !IsJsWhiteSpace(c) && c != '+' && c != '-' && c != 'x' && c != 'X'
  {
  }

  /** Inputs that start plainly and whose digit run is at most 13 digits
      (52 bits) long: enough for the double `parseInt` returns to be exactly
      the integer the digits denote. */
  predicate ParsedExactly(h: string) {
    StartsPlain(h) && HexRunLength(h) <= 13
  }

  /** `parseInt(h, 16)`: the digits before the first non-digit, NaN when
      there are none. */
  function ParseIntHex(h: string): (p: Parsed)
    requires ParsedExactly(h)
    ensures p.NaN? <==> (|h| == 0 || !IsHexDigit(h[0]))
    ensures p.Number? ==> p.value == HexValue(h[..HexRunLength(h)])
    ensures p.Number? ==> p.value < Pow(16, 13)
  {
    var n := HexRunLength(h);
    if n == 0 then NaN
    else
      PowMonotone(16, n, 13);
      Number(HexValue(h[..n]))
  }

  /** ECMAScript ToInt32, the conversion `>>` and `&` apply to their
      operands: NaN becomes 0, a number the 32-bit integer congruent to it. */
  function ToInt32(p: Parsed): (t: int)
    ensures -TwoTo31 <= t < TwoTo31
    ensures p.NaN? ==> t == 0
    ensures p.Number? ==> (p.value - t) % TwoTo32 == 0
  {
    match p
    case NaN => 0
    case Number(v) =>
      var w := v % TwoTo32;
      if w >= TwoTo31 then w - TwoTo32 else w
  }

  /** `x >> bits` on a 32-bit integer: the sign-propagating shift, which
      rounds towards minus infinity. */
  function ShiftRight(x: int, bits: nat): (r: int)
    requires -TwoTo31 <= x < TwoTo31 && bits < 32
    ensures r * Pow(2, bits) <= x < (r + 1) * Pow(2, bits)
  {
    x / Pow(2, bits)
  }

  /** `x & 255`: the low eight bits of the two's-complement form. */
  function Mask255(x: int): (r: int)
    ensures 0 <= r < 256
    ensures (x - r) % 256 == 0
  {
    x % 256
  }

  /** `hexToRgba(hex, a)`: the three bytes of the parsed number, most
      significant first, and the alpha passed through. */
  function HexToRgba(hex: string, a: real): (c: Rgba)
    requires ParsedExactly(StripHash(hex))
    ensures 0 <= c.red < 256 && 0 <= c.green < 256 && 0 <= c.blue < 256
    ensures c.alpha == a
    ensures ParseIntHex(StripHash(hex)).NaN? ==> c.red == 0 && c.green == 0 && c.blue == 0
    ensures ParseIntHex(StripHash(hex)).Number? ==>
              var v := ParseIntHex(StripHash(hex)).value;
              c.red == (v / 65536) % 256 && c.green == (v / 256) % 256 && c.blue == v % 256
  {
    var p := ParseIntHex(StripHash(hex));
    var n := ToInt32(p);
    var c := Rgba(Mask255(ShiftRight(n, 16)), Mask255(ShiftRight(n, 8)), Mask255(n), a);
    if p.Number? then
      PowersOfTwo();
      ChannelBits(p.value, 16);
      ChannelBits(p.value, 8);
      ChannelBits(p.value, 0);
      c
    else
      c
  }

  /** `hexToRgba(hex)` with the alpha left to its default. */
  function HexToRgbaDefault(hex: string): (c: Rgba)
    requires ParsedExactly(StripHash(hex))
    ensures c.alpha == 1.0
    ensures c == HexToRgba(hex, c.alpha)
  {
    HexToRgba(hex, DefaultAlpha)
  }

  // ---------------------------------------------------------------------
  // Arithmetic facts

  lemma PowMonotone(b: nat, i: nat, j: nat)
    requires b > 0 && i <= j
    ensures Pow(b, i) <= Pow(b, j)
    decreases j - i
  {
    if i < j {
      PowMonotone(b, i, j - 1);
    }
  }

  lemma PowAdd(b: nat, i: nat, j: nat)
    requires b > 0
    ensures Pow(b, i + j) == Pow(b, i) * Pow(b, j)
    decreases j
  {
    if j > 0 {
      PowAdd(b, i, j - 1);
      assert Pow(b, i + j) == b * Pow(b, i + j - 1);
    }
  }

  /** Euclidean division is unique. */
  lemma DivModUnique(a: int, m: int, q: int, r: int)
    requires m > 0 && 0 <= r < m && a == q * m + r
    ensures a / m == q && a % m == r
  {
    var q0, r0 := a / m, a % m;
    assert a == q0 * m + r0;
    var d := q0 - q;
    assert d * m == r - r0;
    if d > 0 {
      MulAtLeast(d, m);
    } else if d < 0 {
      MulAtLeast(-d, m);
    }
  }

  lemma MulAtLeast(d: int, m: int)
    requires d >= 1 && m > 0
    ensures d * m >= m
  {
    assert d * m == (d - 1) * m + m;
  }

  lemma DivShift(a: int, c: int, m: int)
    requires m > 0
    ensures (a + c * m) / m == a / m + c
    ensures (a + c * m) % m == a % m
  {
    DivModUnique(a + c * m, m, a / m + c, a % m);
  }

  /** Two numbers that differ by a multiple of `m * 256` have the same byte
      above the bottom `m`. */
  lemma SameByteAbove(v: int, t: int, m: int, c: int)
    requires m > 0 && v - t == c * (m * 256)
    ensures (t / m) % 256 == (v / m) % 256
  {
    assert t == v + (-c * 256) * m;
    DivShift(v, -c * 256, m);
    assert t / m == v / m + (-c) * 256;
    DivShift(v / m, -c, 256);
  }

  lemma PowersOfTwo()
    ensures Pow(2, 0) == 1 && Pow(2, 8) == 256 && Pow(2, 16) == 65536
  {
    assert Pow(2, 4) == 16;
    assert Pow(2, 8) == 256;
  }

  /** The byte `(ToInt32(v) >> bits) & 255` is the byte `bits` above the
      bottom of `v` itself: wrapping to 32 bits and propagating the sign
      only change bits from 32 upwards. */
  lemma ChannelBits(v: nat, bits: nat)
    requires bits == 0 || bits == 8 || bits == 16
    ensures var t := ToInt32(Number(v));
            Mask255(ShiftRight(t, bits)) == (v / Pow(2, bits)) % 256
  {
    var t := ToInt32(Number(v));
    PowersOfTwo();
    var m := Pow(2, bits);
    var c := (v - t) / TwoTo32;
    assert v - t == c * TwoTo32;
    var k := TwoTo32 / (m * 256);
    assert TwoTo32 == k * (m * 256);
    assert v - t == (c * k) * (m * 256);
    SameByteAbove(v, t, m, c * k);
  }

  // ---------------------------------------------------------------------
  // The six-digit form

  /** `#RRGGBB`: a hash and six hex digits. */
  predicate IsSixDigitHex(hex: string) {
    |hex| == 7 && hex[0] == '#' && forall i :: 1 <= i < 7 ==> IsHexDigit(hex[i])
  }

  /** The byte written by the two digits at `hex[i]` and `hex[i + 1]`. */
  function DigitPair(hex: string, i: nat): (v: nat)
    requires i + 1 < |hex| && IsHexDigit(hex[i]) && IsHexDigit(hex[i + 1])
  {
    DigitValue(hex[i]) * 16 + DigitValue(hex[i + 1])
  }

  lemma {:induction false} HexRunOfDigits(h: string)
    requires AllHex(h)
    ensures HexRunLength(h) == |h|
    decreases |h|
  {
    if |h| > 0 {
      HexRunOfDigits(h[1..]);
    }
  }

  /** Digits read left to right: the front is worth `16^|back|` times its value. */
  lemma {:induction false} HexValueConcat(a: string, b: string)
    requires AllHex(a) && AllHex(b)
    ensures AllHex(a + b)
    ensures HexValue(a + b) == HexValue(a) * Pow(16, |b|) + HexValue(b)
    decreases |b|
  {
    assert AllHex(a + b) by {
      forall i | 0 <= i < |a + b| ensures IsHexDigit((a + b)[i]) {
        if i < |a| { assert (a + b)[i] == a[i]; } else { assert (a + b)[i] == b[i - |a|]; }
      }
    }
    if |b| == 0 {
      assert a + b == a;
    } else {
      var b' := b[..|b| - 1];
      var c := b[|b| - 1];
      assert (a + b)[..|a + b| - 1] == a + b';
      assert AllHex(b');
      HexValueConcat(a, b');
      assert HexValue(a + b) == HexValue(a + b') * 16 + DigitValue(c);
      assert HexValue(b) == HexValue(b') * 16 + DigitValue(c);
      assert Pow(16, |b|) == Pow(16, |b'|) * 16;
      ShiftDigitIn(HexValue(a), Pow(16, |b'|), HexValue(b'), DigitValue(c));
    }
  }

  /** Appending a digit to `front * p + back` multiplies both parts by 16. */
  lemma ShiftDigitIn(front: int, p: int, back: int, d: int)
    ensures (front * p + back) * 16 + d == front * (p * 16) + (back * 16 + d)
  {
  }

  lemma TwoDigitValue(ds: string)
    requires |ds| == 2 && AllHex(ds)
    ensures HexValue(ds) == DigitValue(ds[0]) * 16 + DigitValue(ds[1])
  {
    assert ds[..1][..0] == [];
  }

  /** Six digits denote `RR * 65536 + GG * 256 + BB`. */
  lemma SixDigitValue(h: string)
    requires |h| == 6 && AllHex(h)
    ensures HexValue(h) == DigitPair(h, 0) * 65536 + DigitPair(h, 2) * 256 + DigitPair(h, 4)
  {
    var rr, gg, bb := h[..2], h[2..4], h[4..];
    assert AllHex(rr) && AllHex(gg) && AllHex(bb);
    assert rr + gg + bb == h;
    TwoDigitValue(rr);
    TwoDigitValue(gg);
    TwoDigitValue(bb);
    var r, g, b := HexValue(rr), HexValue(gg), HexValue(bb);
    assert r == DigitPair(h, 0) && g == DigitPair(h, 2) && b == DigitPair(h, 4);
    assert Pow(16, 2) == 256;
    HexValueConcat(rr, gg);
    assert HexValue(rr + gg) == r * 256 + g;
    HexValueConcat(rr + gg, bb);
    assert HexValue(h) == (r * 256 + g) * 256 + b;
    ShiftByteIn(r, g, b);
  }

  lemma ShiftByteIn(r: int, g: int, b: int)
    ensures (r * 256 + g) * 256 + b == r * 65536 + g * 256 + b
  {
  }

  /** The three bytes of `r * 65536 + g * 256 + b` are `r`, `g` and `b`. */
  lemma ThreeBytes(r: nat, g: nat, b: nat)
    requires r < 256 && g < 256 && b < 256
    ensures var v := r * 65536 + g * 256 + b;
            (v / 65536) % 256 == r && (v / 256) % 256 == g && v % 256 == b
  {
    var v := r * 65536 + g * 256 + b;
    DivModUnique(v, 65536, r, g * 256 + b);
    DivModUnique(r, 256, 0, r);
    assert v == (r * 256 + g) * 256 + b;
    DivModUnique(v, 256, r * 256 + g, b);
    DivModUnique(r * 256 + g, 256, r, g);
  }

  /** A hash followed by up to 13 digits is read as the number they denote. */
  lemma ParseHashDigits(hex: string)
    requires 1 < |hex| <= 14 && hex[0] == '#' && AllHex(hex[1..])
    ensures ParsedExactly(StripHash(hex))
    ensures ParseIntHex(StripHash(hex)) == Number(HexValue(hex[1..]))
  {
    var h := hex[1..];
    assert StripHash(hex) == h by {
      assert HashIndex(hex) == 0;
      assert hex[..0] + hex[1..] == h;
    }
    assert StartsPlain(h) by {
      DigitIsPlain(h[0]);
      if |h| > 1 { DigitIsPlain(h[1]); }
    }
    HexRunOfDigits(h);
    assert h[..|h|] == h;
  }

  /** `parseInt` reads the six digits of `#RRGGBB` as one number. */
  lemma ParseSixDigits(hex: string)
    requires IsSixDigitHex(hex)
    ensures ParsedExactly(StripHash(hex))
    ensures ParseIntHex(StripHash(hex))
         == Number(DigitPair(hex, 1) * 65536 + DigitPair(hex, 3) * 256 + DigitPair(hex, 5))
  {
    var h := hex[1..];
    assert AllHex(h);
    ParseHashDigits(hex);
    SixDigitValue(h);
    assert DigitPair(h, 0) == DigitPair(hex, 1);
    assert DigitPair(h, 2) == DigitPair(hex, 3);
    assert DigitPair(h, 4) == DigitPair(hex, 5);
  }

  /** For `#RRGGBB`, red is RR, green GG and blue BB, and alpha is `a`. */
  lemma SixDigitChannels(hex: string, a: real)
    requires IsSixDigitHex(hex)
    ensures ParsedExactly(StripHash(hex))
    ensures HexToRgba(hex, a) == Rgba(DigitPair(hex, 1), DigitPair(hex, 3), DigitPair(hex, 5), a)
  {
    ParseSixDigits(hex);
    ThreeBytes(DigitPair(hex, 1), DigitPair(hex, 3), DigitPair(hex, 5));
  }

  /** `#RRGGBB` written from three bytes, upper-case as in the catalog. */
  function Format(red: nat, green: nat, blue: nat): (hex: string)
    requires red < 256 && green < 256 && blue < 256
    ensures IsSixDigitHex(hex)
  {
    ['#', UpperDigit(red / 16), UpperDigit(red % 16),
     UpperDigit(green / 16), UpperDigit(green % 16),
     UpperDigit(blue / 16), UpperDigit(blue % 16)]
  }

  /** Reading back a formatted colour gives the bytes it was written from. */
  lemma FormatRoundTrip(red: nat, green: nat, blue: nat, a: real)
    requires red < 256 && green < 256 && blue < 256
    ensures ParsedExactly(StripHash(Format(red, green, blue)))
    ensures HexToRgba(Format(red, green, blue), a) == Rgba(red, green, blue, a)
  {
    SixDigitChannels(Format(red, green, blue), a);
  }

  /** `#2563EB`, the first catalog colour, is (37, 99, 235). */
  lemma BlueExample(a: real)
    ensures ParsedExactly(StripHash("#2563EB"))
    ensures HexToRgba("#2563EB", a) == Rgba(37, 99, 235, a)
  {
    var hex := "#2563EB";
    assert hex == Format(37, 99, 235);
    FormatRoundTrip(37, 99, 235, a);
  }

  /** `#FFFFFF` is (255, 255, 255). */
  lemma WhiteExample(a: real)
    ensures ParsedExactly(StripHash("#FFFFFF"))
    ensures HexToRgba("#FFFFFF", a) == Rgba(255, 255, 255, a)
  {
    assert "#FFFFFF" == Format(255, 255, 255);
    FormatRoundTrip(255, 255, 255, a);
  }

  /** `parseInt` reads `#FFF` as 0xFFF. */
  lemma ParseShortForm()
    ensures ParsedExactly(StripHash("#FFF"))
    ensures ParseIntHex(StripHash("#FFF")) == Number(4095)
  {
    var hex := "#FFF";
    assert hex[1..] == "FFF";
    assert AllHex("FFF");
    ParseHashDigits(hex);
    assert "FFF" == "FF" + "F";
    TwoDigitValue("FF");
    HexValueConcat("FF", "F");
    assert HexValue("F") == 15 by {
      assert "F"[..0] == [];
    }
  }

  /** A three-digit colour is read as one number, not expanded as CSS
      shorthand: `#FFF` is (0, 15, 255). */
  lemma ShortFormExample()
    ensures ParsedExactly(StripHash("#FFF")) && HexToRgba("#FFF", 1.0) == Rgba(0, 15, 255, 1.0)
  {
    ParseShortForm();
  }

  /** `#RRGGBBAA`: a hash and eight hex digits, CSS's form with alpha. */
  predicate IsEightDigitHex(hex: string) {
    |hex| == 9 && hex[0] == '#' && forall i :: 1 <= i < 9 ==> IsHexDigit(hex[i])
  }

  /** Eight digits denote `RR * 2^24 + GG * 65536 + BB * 256 + AA`. */
  lemma EightDigitValue(h: string)
    requires |h| == 8 && AllHex(h)
    ensures HexValue(h) == DigitPair(h, 0) * 0x100_0000 + DigitPair(h, 2) * 65536
                           + DigitPair(h, 4) * 256 + DigitPair(h, 6)
  {
    var front, back := h[..2], h[2..];
    assert AllHex(front) && AllHex(back);
    assert front + back == h;
    TwoDigitValue(front);
    SixDigitValue(back);
    HexValueConcat(front, back);
    PowAdd(16, 2, 4);
    assert Pow(16, 2) == 256;
    assert Pow(16, 6) == 0x100_0000;
    assert DigitPair(back, 0) == DigitPair(h, 2);
    assert DigitPair(back, 2) == DigitPair(h, 4);
    assert DigitPair(back, 4) == DigitPair(h, 6);
  }

  /** The low three bytes of `x * 2^24 + r * 65536 + g * 256 + b` are `r`,
      `g` and `b`: the top byte never reaches them. */
  lemma LowThreeBytes(x: nat, r: nat, g: nat, b: nat)
    requires r < 256 && g < 256 && b < 256
    ensures var v := x * 0x100_0000 + r * 65536 + g * 256 + b;
            (v / 65536) % 256 == r && (v / 256) % 256 == g && v % 256 == b
  {
    var w := r * 65536 + g * 256 + b;
    ThreeBytes(r, g, b);
    var v := x * 0x100_0000 + w;
    assert v == w + (x * 256) * 65536;
    DivShift(w, x * 256, 65536);
    DivShift(w / 65536, x, 256);
    assert v == w + (x * 65536) * 256;
    DivShift(w, x * 65536, 256);
    DivShift(w / 256, x * 256, 256);
  }

  /** An eight-digit colour is not read as CSS's `#RRGGBBAA`: the leading
      byte lies above the three bytes that `>>` and `& 255` select (the sign
      ToInt32 gives it does not reach bits 0 to 23), so GG, BB and AA become
      red, green and blue. For instance `#FF000080` is (0, 0, 128). */
  lemma EightDigitChannels(hex: string, a: real)
    requires IsEightDigitHex(hex)
    ensures ParsedExactly(StripHash(hex))
    ensures HexToRgba(hex, a) == Rgba(DigitPair(hex, 3), DigitPair(hex, 5), DigitPair(hex, 7), a)
  {
    ParseEightDigits(hex);
    LowThreeBytes(DigitPair(hex, 1), DigitPair(hex, 3), DigitPair(hex, 5), DigitPair(hex, 7));
  }

  /** `parseInt` reads the eight digits of `#RRGGBBAA` as one number. */
  lemma ParseEightDigits(hex: string)
    requires IsEightDigitHex(hex)
    ensures ParsedExactly(StripHash(hex))
    ensures ParseIntHex(StripHash(hex))
         == Number(DigitPair(hex, 1) * 0x100_0000 + DigitPair(hex, 3) * 65536
                   + DigitPair(hex, 5) * 256 + DigitPair(hex, 7))
  {
    var h := hex[1..];
    assert AllHex(h);
    ParseHashDigits(hex);
    EightDigitValue(h);
    assert DigitPair(h, 0) == DigitPair(hex, 1);
    assert DigitPair(h, 2) == DigitPair(hex, 3);
    assert DigitPair(h, 4) == DigitPair(hex, 5);
    assert DigitPair(h, 6) == DigitPair(hex, 7);
  }

  /** `#FF000080` is (0, 0, 128). */
  lemma EightDigitExample()
    ensures ParsedExactly(StripHash("#FF000080")) && HexToRgba("#FF000080", 1.0) == Rgba(0, 0, 128, 1.0)
  {
    var hex := "#FF000080";
    assert IsEightDigitHex(hex);
    EightDigitChannels(hex, 1.0);
  }

  /** Without leading digits `parseInt` gives NaN, and NaN gives black. */
  lemma NoDigitsExample()
    ensures ParsedExactly(StripHash("#zzzzzz")) && HexToRgba("#zzzzzz", 1.0) == Rgba(0, 0, 0, 1.0)
  {
    assert StripHash("#zzzzzz") == "zzzzzz" by {
      assert HashIndex("#zzzzzz") == 0;
      assert "#zzzzzz"[..0] + "#zzzzzz"[1..] == "zzzzzz";
    }
  }

  /** `parseInt` stops at the first non-digit: `#12zz` reads as 0x12, which
      is (0, 0, 18). */
  lemma TrailingTextExample()
    ensures ParsedExactly(StripHash("#12zz")) && HexToRgba("#12zz", 1.0) == Rgba(0, 0, 18, 1.0)
  {
    ParseTrailingText();
  }

  lemma ParseTrailingText()
    ensures ParsedExactly(StripHash("#12zz"))
    ensures ParseIntHex(StripHash("#12zz")) == Number(18)
  {
    assert StripHash("#12zz") == "12zz" by {
      assert HashIndex("#12zz") == 0;
      assert "#12zz"[..0] + "#12zz"[1..] == "12zz";
    }
    assert HexRunLength("12zz") == 2 by {
      assert HexRunLength("zz") == 0;
      assert "12zz"[1..] == "2zz" && "2zz"[1..] == "zz";
    }
    assert "12zz"[..2] == "12";
    TwoDigitValue("12");
  }

  /** A text that starts with a character `parseInt` does not skip and that
      is no digit, such as a letter outside ASCII, gives NaN and so black. */
  lemma NonAsciiStartExample()
    ensures ParsedExactly(StripHash("#é00000")) && HexToRgba("#é00000", 1.0) == Rgba(0, 0, 0, 1.0)
  {
    assert StripHash("#é00000") == "é00000" by {
      assert HashIndex("#é00000") == 0;
      assert "#é00000"[..0] + "#é00000"[1..] == "é00000";
    }
  }
}

=== FILE: indexed_map.dfy ===
/** `Array.prototype.map` with the element index, the shape every list in the
    rendered sections is built with (`items.map((item, idx) => …)`). */
module IndexedMap {

  /** The element-by-element image of `xs` under `f`, each element paired
      with its position, counted from 0. */
  function MapIndexed<T, U>(xs: seq<T>, f: (nat, T) -> U): (r: seq<U>)
    ensures |r| == |xs|
    ensures forall i :: 0 <= i < |xs| ==> r[i] == f(i, xs[i])
  {
    MapFrom(xs, f, 0)
  }

  /** The images of `xs[from..]`, positions still counted in `xs`. */
  function MapFrom<T, U>(xs: seq<T>, f: (nat, T) -> U, from: nat): (r: seq<U>)
    requires from <= |xs|
    ensures |r| == |xs| - from
    ensures forall i :: 0 <= i < |r| ==> r[i] == f(from + i, xs[from + i])
    decreases |xs| - from
  {
    if from == |xs| then []
    else [f(from, xs[from])] + MapFrom(xs, f, from + 1)
  }
}

=== FILE: services_overview.dfy ===
/** The services overview: a fixed catalog of six services shown as a grid
    of cards beside a phone mockup. One number, the active service id,
    drives both views: hovering a card makes its service active, the card
    whose id equals the active id is drawn as active, and the mockup shows
    the active service. */
module ServicesOverview {
  import opened Wrappers
  import opened IndexedMap
  import HexColour

  /** The icons the section draws, as opaque tokens. */
  datatype Icon = Brain | Plane | GraduationCap | Award | Microscope | Lightbulb | Zap

  /** One catalog entry. */
  datatype Service = Service(
    id: int,
    title: string,
    description: string,
    icon: string,
    color: string,
    tagline: string,
    features: seq<string>,
    mockupBg: string)

  /** The catalog, in display order. */
  const Services: seq<Service> := [
    Service(1, "Career Counselling + Psychometric tests",
      "A scientific, multi-dimensional assessment evaluating personality, interests, and skills to create a 15-year roadmap.",
      "Brain", "#2563EB", "Psychometric Assessment",
      ["15-Year Career Roadmap", "Skill Mapping", "Informed Decisions"],
      "bg-gradient-to-br from-blue-600 to-indigo-900"),
    Service(2, "Study abroad",
      "End-to-end guidance for admissions across 20+ countries and 3000+ universities. Profile evaluation and visa assistance.",
      "Plane", "#059669", "Study Abroad Admissions",
      ["University Shortlisting", "SOP/LOR Support", "Visa Assistance"],
      "bg-gradient-to-br from-emerald-600 to-teal-800"),
    Service(3, "Indian & Online Degrees",
      "Access to 2000+ Indian institutions and 150+ online universities for flexible learning in Tech, AI, and Management.",
      "GraduationCap", "#7C3AED", "Degree Programs",
      ["AI & Data Science", "Management & Business", "On-Campus/Online"],
      "bg-gradient-to-br from-violet-600 to-slate-900"),
    Service(4, "Certifications & Trainings",
      "Career-oriented certifications, bootcamps, and 300+ virtual internships designed to improve global employability.",
      "Award", "#F97316", "Certifications & Internships",
      ["Industry-Relevant Skills", "Virtual Internships", "Upskilling Pathways"],
      "bg-gradient-to-br from-orange-500 to-amber-700"),
    Service(5, "Scientific conferences & Events",
      "Organization of scientific conferences, FDPs, and workshops. Build portfolios through research and global awards.",
      "Microscope", "#EAB308", "Scientific Conferences",
      ["Research Exposure", "Portfolio Building", "Portfolio Recognitions"],
      "bg-gradient-to-br from-amber-400 to-yellow-700"),
    Service(6, "Startup & Entrepreneurship",
      "A structured ecosystem for idea incubation, mentorship, funding access, and scaling for aspiring founders.",
      "Lightbulb", "#EC4899", "Investors Connect",
      ["Idea Incubation", "Mentorship Circles", "GTM Strategy"],
      "bg-gradient-to-br from-pink-600 to-rose-900")
  ]

  // ---------------------------------------------------------------------
  // Catalog invariants

  /** No two catalog entries share an id. */
  predicate IdsDistinct(catalog: seq<Service>) {
    forall i, j :: 0 <= i < j < |catalog| ==> catalog[i].id != catalog[j].id
  }

  /** Some catalog entry carries `id`. */
  predicate IsCatalogId(catalog: seq<Service>, id: int) {
    exists i :: 0 <= i < |catalog| && catalog[i].id == id
  }

  /** The catalog holds six services numbered 1 to 6 in order, so it is
      non-empty and its ids are pairwise distinct. */
  lemma CatalogIds()
    ensures |Services| == 6
    ensures forall i :: 0 <= i < |Services| ==> Services[i].id == i + 1
    ensures IdsDistinct(Services)
  {
  }

  /** Every catalog colour is a `#RRGGBB` colour, so `hexToRgba` reads it
      byte by byte. */
  lemma CatalogColours()
    ensures forall i :: 0 <= i < |Services| ==> HexColour.IsSixDigitHex(Services[i].color)
  {
    forall i | 0 <= i < |Services|
      ensures HexColour.IsSixDigitHex(Services[i].color)
    {
      var c := Services[i].color;
      assert forall k :: 1 <= k < 7 ==> HexColour.IsHexDigit(c[k]);
    }
  }

  // ---------------------------------------------------------------------
  // Icons

  /** The name under which each icon is registered in the lookup table. */
  function IconName(icon: Icon): (name: string) {
    match icon
    case Brain => "Brain"
    case Plane => "Plane"
    case GraduationCap => "GraduationCap"
    case Award => "Award"
    case Microscope => "Microscope"
    case Lightbulb => "Lightbulb"
    case Zap => "Zap"
  }

  /** The lookup table `getIcon` builds. */
  const IconTable: map<string, Icon> := map[
    "Brain" := Brain, "Plane" := Plane, "GraduationCap" := GraduationCap,
    "Award" := Award, "Microscope" := Microscope, "Lightbulb" := Lightbulb,
    "Zap" := Zap]

  /** Property names every JavaScript object inherits; indexing the table
      with one of them yields a truthy non-icon value. */
  predicate IsObjectPrototypeKey(name: string) {
    name in {"constructor", "hasOwnProperty", "isPrototypeOf", "propertyIsEnumerable",
             "toLocaleString", "toString", "valueOf", "__proto__",
             "__defineGetter__", "__defineSetter__", "__lookupGetter__", "__lookupSetter__"}
  }

  /** `getIcon(name)`: the icon registered under `name`, `Zap` for any other
      name. */
  function GetIcon(name: string): (icon: Icon)
    requires !IsObjectPrototypeKey(name)
    ensures name in IconTable <==> IconName(icon) == name
    ensures name !in IconTable ==> icon == Zap
  {
    if name in IconTable then IconTable[name] else Zap
  }

  /** Every icon is found under its own name: no two names share an icon. */
  lemma IconRoundTrip(icon: Icon)
    ensures !IsObjectPrototypeKey(IconName(icon))
    ensures GetIcon(IconName(icon)) == icon
  {
  }

  /** Catalog icon names are all registered and none is `Zap`, so no
      catalog card falls back to the default icon; and each service has an
      icon of its own. */
  lemma CatalogIcons()
    ensures forall i :: 0 <= i < |Services| ==>
              !IsObjectPrototypeKey(Services[i].icon) && Services[i].icon in IconTable
              && GetIcon(Services[i].icon) != Zap
    ensures forall i, j :: 0 <= i < j < |Services| ==> GetIcon(Services[i].icon) != GetIcon(Services[j].icon)
  {
  }

  // ---------------------------------------------------------------------
  // Selection state

  /** The component state: the id of the active service. */
  datatype Selection = Selection(activeId: int)

  /** `SERVICES.find(s => s.id === id)`, as the position of the first entry
      with that id. */
  function FindIndex(catalog: seq<Service>, id: int): (r: Option<nat>)
    ensures r.Some? ==> r.value < |catalog| && catalog[r.value].id == id
    ensures r.Some? ==> forall j :: 0 <= j < r.value ==> catalog[j].id != id
    ensures r.None? <==> !IsCatalogId(catalog, id)
  {
    if |catalog| == 0 then None
    else if catalog[0].id == id then Some(0)
    else
      match FindIndex(catalog[1..], id)
      case None =>
        assert forall j :: 1 <= j < |catalog| ==> catalog[j].id == catalog[1..][j - 1].id;
        None
      case Some(k) => Some(k + 1)
  }

  /** `SERVICES.find(s => s.id === activeId) || SERVICES[0]`: the first
      entry carrying the active id, or the first entry when none does. It is
      always a catalog entry. */
  function ActiveService(catalog: seq<Service>, sel: Selection): (s: Service)
    requires |catalog| > 0
    ensures s in catalog
    ensures IsCatalogId(catalog, sel.activeId) ==> s.id == sel.activeId
    ensures !IsCatalogId(catalog, sel.activeId) ==> s == catalog[0]
    ensures IsCatalogId(catalog, sel.activeId) ==>
              exists i :: 0 <= i < |catalog| && s == catalog[i] && catalog[i].id == sel.activeId
                          && forall j :: 0 <= j < i ==> catalog[j].id != sel.activeId
    ensures IdsDistinct(catalog) ==>
              forall i :: 0 <= i < |catalog| && catalog[i].id == sel.activeId ==> s == catalog[i]
  {
    match FindIndex(catalog, sel.activeId)
    case Some(i) => catalog[i]
    case None => catalog[0]
  }

  /** `useState(SERVICES[0].id)`: the first service starts active. */
  function InitialSelection(catalog: seq<Service>): (sel: Selection)
    requires |catalog| > 0
    ensures IsCatalogId(catalog, sel.activeId)
    ensures ActiveService(catalog, sel) == catalog[0]
    ensures IdsDistinct(catalog) ==> ActiveCards(catalog, sel) == {0}
  {
    Selection(catalog[0].id)
  }

  /** Mouse-enter on the card at position `card` passes that service's id to
      `setActiveId`, which stores it unchecked; with distinct ids that
      service becomes the active one, whatever was active before. */
  function HoverCard(catalog: seq<Service>, sel: Selection, card: nat): (sel': Selection)
    requires card < |catalog|
    ensures IsCatalogId(catalog, sel'.activeId)
    ensures IdsDistinct(catalog) ==> ActiveService(catalog, sel') == catalog[card]
  {
    Selection(catalog[card].id)
  }

  /** `isActive={activeId === service.id}` for one card. */
  predicate IsActive(sel: Selection, service: Service) {
    sel.activeId == service.id
  }

  /** The positions of the cards drawn as active. */
  function ActiveCards(catalog: seq<Service>, sel: Selection): (cards: set<nat>)
    ensures forall i :: 0 <= i < |catalog| ==> (i in cards <==> catalog[i].id == sel.activeId)
    ensures forall i :: i in cards ==> i < |catalog| && catalog[i].id == sel.activeId
    ensures cards == {} <==> !IsCatalogId(catalog, sel.activeId)
    ensures IdsDistinct(catalog) ==> |cards| <= 1
  {
    var cards := set i: nat | i < |catalog| && IsActive(sel, catalog[i]);
    ActiveCardsCount(catalog, sel, cards);
    cards
  }

  lemma ActiveCardsCount(catalog: seq<Service>, sel: Selection, cards: set<nat>)
    requires cards == set i: nat | i < |catalog| && IsActive(sel, catalog[i])
    ensures cards == {} <==> !IsCatalogId(catalog, sel.activeId)
    ensures IdsDistinct(catalog) ==> |cards| <= 1
  {
    if IsCatalogId(catalog, sel.activeId) {
      var k :| 0 <= k < |catalog| && catalog[k].id == sel.activeId;
      assert k in cards;
      if IdsDistinct(catalog) {
        assert cards == {k};
      }
    }
  }

  /** While the active id belongs to the catalog, exactly one card is drawn
      as active, and it is the card of the service the mockup shows. */
  lemma ExactlyOneActive(catalog: seq<Service>, sel: Selection)
    requires IdsDistinct(catalog) && IsCatalogId(catalog, sel.activeId)
    ensures exists k :: 0 <= k < |catalog| && ActiveCards(catalog, sel) == {k}
                        && catalog[k] == ActiveService(catalog, sel)
  {
    var k :| 0 <= k < |catalog| && catalog[k].id == sel.activeId;
    assert ActiveCards(catalog, sel) == {k};
  }

  /** An id no service carries leaves no card active and the mockup on the
      first service: the setter is not a no-op for such ids, it only never
      receives one. */
  lemma UnknownIdFallsBack(catalog: seq<Service>, id: int)
    requires |catalog| > 0 && !IsCatalogId(catalog, id)
    ensures ActiveService(catalog, Selection(id)) == catalog[0]
    ensures ActiveCards(catalog, Selection(id)) == {}
  {
    assert forall i :: 0 <= i < |catalog| ==> catalog[i].id != id;
  }

  /** The state after hovering the cards at positions `hovers`, in order,
      starting from the initial state. */
  function Replay(catalog: seq<Service>, hovers: seq<nat>): (sel: Selection)
    requires |catalog| > 0
    requires forall i :: 0 <= i < |hovers| ==> hovers[i] < |catalog|
  {
    if |hovers| == 0 then InitialSelection(catalog)
    else HoverCard(catalog, Replay(catalog, hovers[..|hovers| - 1]), hovers[|hovers| - 1])
  }

  /** Every reachable state names a catalog service; the mockup shows the
      last hovered service, or the first service before any hover; and
      exactly one card is active throughout. */
  lemma {:induction false} ReplayInvariant(catalog: seq<Service>, hovers: seq<nat>)
    requires |catalog| > 0 && IdsDistinct(catalog)
    requires forall i :: 0 <= i < |hovers| ==> hovers[i] < |catalog|
    ensures IsCatalogId(catalog, Replay(catalog, hovers).activeId)
    ensures |hovers| == 0 ==> ActiveService(catalog, Replay(catalog, hovers)) == catalog[0]
    ensures |hovers| > 0 ==> ActiveService(catalog, Replay(catalog, hovers)) == catalog[hovers[|hovers| - 1]]
    ensures |ActiveCards(catalog, Replay(catalog, hovers))| == 1
  {
    var sel := Replay(catalog, hovers);
    if |hovers| == 0 {
      assert catalog[0].id == sel.activeId;
    }
    ExactlyOneActive(catalog, sel);
  }

  // ---------------------------------------------------------------------
  // Phone mockup

  /** One feature line of the mockup: `key={i}`, a dot in the service colour
      and the feature text. */
  datatype FeatureRow = FeatureRow(key: nat, dot: string, text: string)

  /** What the mockup shows for a service. */
  datatype Mockup = Mockup(
    key: int,
    background: string,
    icon: Icon,
    heading: string,
    body: string,
    rows: seq<FeatureRow>,
    caption: string)

  /** The feature texts the rows display. */
  function Labels(rows: seq<FeatureRow>): (labels: seq<string>)
    ensures |labels| == |rows|
    ensures forall i :: 0 <= i < |rows| ==> labels[i] == rows[i].text
  {
    MapIndexed(rows, (_: nat, row: FeatureRow) => row.text)
  }

  /** `activeService.features.map((f, i) => …)`: one row per feature. */
  function FeatureRows(service: Service): (rows: seq<FeatureRow>)
    ensures Labels(rows) == service.features
    ensures forall i :: 0 <= i < |rows| ==> rows[i].key == i && rows[i].dot == service.color
  {
    MapIndexed(service.features, (i: nat, f: string) => FeatureRow(i, service.color, f))
  }

  /** The mockup and the caption below it for the active service. */
  function PhoneMockup(service: Service): (m: Mockup)
    requires !IsObjectPrototypeKey(service.icon)
    ensures m.key == service.id && m.background == service.mockupBg
    ensures m.heading == service.tagline && m.body == service.description
    ensures Labels(m.rows) == service.features
    ensures forall i :: 0 <= i < |m.rows| ==> m.rows[i].dot == service.color
    ensures service.icon in IconTable ==> IconName(m.icon) == service.icon
    ensures service.icon !in IconTable ==> m.icon == Zap
    ensures m.caption == service.title + " Portal"
  {
    Mockup(service.id, service.mockupBg, GetIcon(service.icon), service.tagline,
           service.description, FeatureRows(service), service.title + " Portal")
  }

  /** After hovering a card the mockup shows that service: its tagline, its
      description, its features in catalog order, its icon, and a caption
      naming it. */
  lemma MockupFollowsHover(catalog: seq<Service>, sel: Selection, card: nat)
    requires IdsDistinct(catalog) && card < |catalog|
    requires !IsObjectPrototypeKey(catalog[card].icon)
    ensures var m := PhoneMockup(ActiveService(catalog, HoverCard(catalog, sel, card)));
            && m.key == catalog[card].id
            && m.heading == catalog[card].tagline
            && m.body == catalog[card].description
            && Labels(m.rows) == catalog[card].features
            && m.icon == GetIcon(catalog[card].icon)
            && m.caption == catalog[card].title + " Portal"
  {
    assert ActiveService(catalog, HoverCard(catalog, sel, card)) == catalog[card];
  }

  /** Before any hover the mockup shows the first service's three features. */
  lemma InitialMockup()
    ensures var m := PhoneMockup(ActiveService(Services, InitialSelection(Services)));
            Labels(m.rows) == ["15-Year Career Roadmap", "Skill Mapping", "Informed Decisions"]
            && m.icon == Brain
  {
    var service := ActiveService(Services, InitialSelection(Services));
    FirstService();
    assert GetIcon(service.icon) == Brain;
  }

  /** The first catalog entry, the one shown before any hover. */
  lemma FirstService()
    ensures Services[0].icon == "Brain"
    ensures Services[0].features == ["15-Year Career Roadmap", "Skill Mapping", "Informed Decisions"]
  {
  }
}

=== FILE: study_abroad.dfy ===
/** The study-abroad section: a row of stat cards and a grid of feature
    cards that highlight while hovered or pressed, a marquee of destination
    countries that pauses under the pointer, and the partner universities
    laid out in a two-column timeline. */
module StudyAbroad {
  import opened Wrappers
  import opened IndexedMap
  import VerticalTimeline

  const Countries: seq<string> :=
    ["UK", "USA", "Canada", "Germany", "France", "Australia", "Ireland", "Spain"]

  const Universities: seq<string> := [
    "Liverpool John Moores University", "Golden Gate University",
    "University of Warwick", "Michigan State University",
    "Johnson & Wales University", "James Cook University",
    "Deakin University", "University of Arizona",
    "University of Bridgeport", "Wharton Business School",
    "University Canada West", "SSBM Geneva"]

  /** The stat row has four cards and the feature grid six. */
  const StatCount: nat := 4
  const FeatureCount: nat := 6

  // ---------------------------------------------------------------------
  // Hover slots

  /** The gestures a card reacts to. */
  datatype Gesture = HoverStart | HoverEnd | PointerDown | PointerUp

  /** The section's three `number | null` state slots. */
  datatype Hover = Hover(
    hoveredIndex: Option<nat>,
    hoveredUniIndex: Option<nat>,
    hoveredFeatureIndex: Option<nat>)

  /** All three slots start empty. */
  const InitialHover: Hover := Hover(None, None, None)

  /** A card's handlers: hover-start and pointer-down store the card's
      index, hover-end and pointer-up clear the slot, whichever card was
      highlighted before. */
  function SlotAfter(slot: Option<nat>, index: nat, gesture: Gesture): (slot': Option<nat>)
    ensures (gesture == HoverStart || gesture == PointerDown) <==> slot' == Some(index)
    ensures (gesture == HoverEnd || gesture == PointerUp) <==> slot'.None?
  {
    match gesture
    case HoverStart => Some(index)
    case PointerDown => Some(index)
    case HoverEnd => None
    case PointerUp => None
  }

  /** Events that reach the hover slots. */
  datatype CardEvent = StatCard(index: nat, gesture: Gesture) | FeatureCard(index: nat, gesture: Gesture)

  /** A stat-card event writes `hoveredIndex` only, a feature-card event
      `hoveredFeatureIndex` only, each with the card's handler; nothing
      writes `hoveredUniIndex`. */
  function Step(h: Hover, e: CardEvent): (h': Hover)
    ensures h'.hoveredUniIndex == h.hoveredUniIndex
    ensures e.StatCard? ==> h'.hoveredFeatureIndex == h.hoveredFeatureIndex
    ensures e.FeatureCard? ==> h'.hoveredIndex == h.hoveredIndex
    ensures e.StatCard? ==> h'.hoveredIndex == SlotAfter(h.hoveredIndex, e.index, e.gesture)
    ensures e.FeatureCard? ==> h'.hoveredFeatureIndex == SlotAfter(h.hoveredFeatureIndex, e.index, e.gesture)
  {
    match e
    case StatCard(i, g) => h.(hoveredIndex := SlotAfter(h.hoveredIndex, i, g))
    case FeatureCard(i, g) => h.(hoveredFeatureIndex := SlotAfter(h.hoveredFeatureIndex, i, g))
  }

  /** `hoveredIndex === index`: the card is drawn with its gradient. */
  predicate Highlighted(slot: Option<nat>, index: nat): (on: bool)
    ensures slot.None? ==> !on
    ensures slot.Some? ==> (on <==> index == slot.value)
  {
    slot == Some(index)
  }

  /** The positions, among `count` cards, drawn highlighted. */
  function HighlightedCards(slot: Option<nat>, count: nat): (cards: set<nat>)
    ensures |cards| <= 1
    ensures forall i: nat :: i in cards <==> i < count && Highlighted(slot, i)
  {
    var cards := set i: nat | i < count && Highlighted(slot, i);
    assert cards <= (if slot.Some? then {slot.value} else {});
    SubsetCard(cards, if slot.Some? then {slot.value} else {});
    cards
  }

  lemma SubsetCard(a: set<nat>, b: set<nat>)
    requires a <= b
    ensures |a| <= |b|
  {
    assert b == a + (b - a);
  }

  /** Starting or pressing on stat card `i` highlights it and no other stat
      card; ending or releasing on any stat card leaves none highlighted. */
  lemma StatGestures(h: Hover, i: nat, j: nat, g: Gesture)
    requires i < StatCount && j < StatCount
    ensures var h' := Step(h, StatCard(i, g));
            (g == HoverStart || g == PointerDown) ==> HighlightedCards(h'.hoveredIndex, StatCount) == {i}
    ensures var h' := Step(h, StatCard(j, g));
            (g == HoverEnd || g == PointerUp) ==> HighlightedCards(h'.hoveredIndex, StatCount) == {}
  {
  }

  /** The same for the feature grid and `hoveredFeatureIndex`. */
  lemma FeatureGestures(h: Hover, i: nat, j: nat, g: Gesture)
    requires i < FeatureCount && j < FeatureCount
    ensures var h' := Step(h, FeatureCard(i, g));
            (g == HoverStart || g == PointerDown) ==> HighlightedCards(h'.hoveredFeatureIndex, FeatureCount) == {i}
    ensures var h' := Step(h, FeatureCard(j, g));
            (g == HoverEnd || g == PointerUp) ==> HighlightedCards(h'.hoveredFeatureIndex, FeatureCount) == {}
  {
  }

  /** The state after a sequence of card events from the initial state. */
  function Run(events: seq<CardEvent>): (h: Hover) {
    if |events| == 0 then InitialHover
    else Step(Run(events[..|events| - 1]), events[|events| - 1])
  }

  /** Every event names a card that exists. */
  predicate EventsInRange(events: seq<CardEvent>) {
    forall k :: 0 <= k < |events| ==>
      (events[k].StatCard? ==> events[k].index < StatCount)
      && (events[k].FeatureCard? ==> events[k].index < FeatureCount)
  }

  /** Along any run `hoveredUniIndex` stays empty, and a slot only ever
      holds the index of an existing card of its own kind. */
  lemma {:induction false} RunInvariant(events: seq<CardEvent>)
    requires EventsInRange(events)
    ensures Run(events).hoveredUniIndex == None
    ensures Run(events).hoveredIndex.Some? ==> Run(events).hoveredIndex.value < StatCount
    ensures Run(events).hoveredFeatureIndex.Some? ==> Run(events).hoveredFeatureIndex.value < FeatureCount
  {
    if |events| > 0 {
      var front := events[..|events| - 1];
      assert EventsInRange(front) by {
        forall k | 0 <= k < |front| ensures front[k] == events[k] { }
      }
      RunInvariant(front);
    }
  }

  /** The slot a run leaves is decided by the last event of its own kind:
      feature-card events do not disturb the stat row. */
  lemma {:induction false} FeatureEventsLeaveStats(events: seq<CardEvent>, more: seq<CardEvent>)
    requires forall k :: 0 <= k < |more| ==> more[k].FeatureCard?
    ensures Run(events + more).hoveredIndex == Run(events).hoveredIndex
    decreases |more|
  {
    var all := events + more;
    if |more| == 0 {
      assert all == events;
    } else {
      assert all[..|all| - 1] == events + more[..|more| - 1];
      assert all[|all| - 1] == more[|more| - 1];
      FeatureEventsLeaveStats(events, more[..|more| - 1]);
    }
  }

  // ---------------------------------------------------------------------
  // Marquee

  /** `countries.concat(countries)`: the track holds the list twice, so
      that scrolling it by half its width shows the same picture again. */
  function MarqueeItems(countries: seq<string>): (items: seq<string>)
    ensures |items| == 2 * |countries|
    ensures items[..|countries|] == countries && items[|countries|..] == countries
    ensures forall i :: 0 <= i < |countries| ==> items[i] == items[i + |countries|]
  {
    countries + countries
  }

  /** The eight destinations give a sixteen-entry track. */
  lemma MarqueeOfCountries()
    ensures |MarqueeItems(Countries)| == 16
    ensures MarqueeItems(Countries)[8] == "UK"
  {
  }

  /** The React keys of the track, `${country}-${i}`: entry i is keyed by
      its country and i, so the keys are distinct even though every country
      appears twice. */
  function MarqueeKeys(countries: seq<string>): (keys: seq<(string, nat)>)
    ensures |keys| == 2 * |countries|
    ensures forall i :: 0 <= i < |keys| ==> keys[i] == (MarqueeItems(countries)[i], i)
    ensures forall i, j :: 0 <= i < j < |keys| ==> keys[i] != keys[j]
  {
    var items := MarqueeItems(countries);
    MapIndexed(items, (i: nat, c: string) => (c, i))
  }

  /** The class list of the marquee track. */
  datatype Track = Track(classes: set<string>)

  /** The track starts animated and not paused. */
  const InitialTrack: Track := Track({"marquee-track", "animate"})

  /** The pointer events the marquee container handles. */
  datatype MarqueeEvent = MouseEnter | MouseLeave | MarqueePointerDown | MarqueePointerUp

  /** Enter and press add the `paused` class, leave and release remove it;
      no other class changes. */
  function TrackStep(t: Track, e: MarqueeEvent): (t': Track)
    ensures t'.classes - {"paused"} == t.classes - {"paused"}
    ensures ("paused" in t'.classes) <==> (e == MouseEnter || e == MarqueePointerDown)
  {
    match e
    case MouseEnter => Track(t.classes + {"paused"})
    case MarqueePointerDown => Track(t.classes + {"paused"})
    case MouseLeave => Track(t.classes - {"paused"})
    case MarqueePointerUp => Track(t.classes - {"paused"})
  }

  /** The stylesheet stops the animation when the track carries `animate`
      and `paused` together. */
  predicate Paused(t: Track): (on: bool)
    ensures "paused" !in t.classes ==> !on
    ensures "marquee-track" in t.classes && "animate" in t.classes ==> (on <==> "paused" in t.classes)
  {
    "marquee-track" in t.classes && "animate" in t.classes && "paused" in t.classes
  }

  /** The state after a sequence of marquee events. */
  function TrackRun(events: seq<MarqueeEvent>): (t: Track) {
    if |events| == 0 then InitialTrack
    else TrackStep(TrackRun(events[..|events| - 1]), events[|events| - 1])
  }

  /** The marquee is paused exactly when the last event was an enter or a
      press, and running before any event. */
  lemma {:induction false} PausedIffLastEnter(events: seq<MarqueeEvent>)
    ensures TrackRun(events).classes - {"paused"} == {"marquee-track", "animate"}
    ensures Paused(TrackRun(events)) <==>
              |events| > 0 && (events[|events| - 1] == MouseEnter || events[|events| - 1] == MarqueePointerDown)
  {
    if |events| > 0 {
      PausedIffLastEnter(events[..|events| - 1]);
    }
  }

  /** Adding a class that is already there changes nothing: a second enter
      or press leaves the track as the first one did. */
  lemma PauseIdempotent(t: Track, e1: MarqueeEvent, e2: MarqueeEvent)
    requires e1 == MouseEnter || e1 == MarqueePointerDown
    requires e2 == MouseEnter || e2 == MarqueePointerDown
    ensures TrackStep(TrackStep(t, e1), e2) == TrackStep(t, e1)
  {
  }

  // ---------------------------------------------------------------------
  // Partner universities

  /** The twelve universities split six and six, in list order. */
  lemma UniversitiesSplit()
    ensures var l := VerticalTimeline.Arrange(Universities, Some(2));
            l.TwoColumns? && |l.left| == 6 && |l.right| == 6
            && l.left == Universities[..6] && l.right == Universities[6..]
  {
  }
}

=== FILE: vertical_timeline.dfy ===
/** The vertical timeline: a list of labels drawn as one column of rows, or
    split into a left and a right column. Each column numbers its rows from
    0 and colours a row's accent bar by that number. */
module VerticalTimeline {
  import opened Wrappers
  import opened IndexedMap

  /** The accent palette of a column, in order (its first two entries are
      the same colour). */
  const AccentColors: seq<string> :=
    ["#0ea5a4", "#0ea5a4", "#7c3aed", "#f97316", "#ec4899", "#06b6d4"]

  /** `accentColors[idx % accentColors.length]`: the palette read
      cyclically, so any row number picks an entry. */
  function Accent(idx: nat): (c: string)
    ensures c in AccentColors
    ensures idx < |AccentColors| ==> c == AccentColors[idx]
  {
    AccentColors[idx % |AccentColors|]
  }

  /** Accents repeat with period six. */
  lemma AccentPeriodic(idx: nat)
    ensures Accent(idx + 6) == Accent(idx)
  {
  }

  /** One rendered row: React key `${item}-${idx}`, the text, the accent. */
  datatype Row = Row(key: (string, nat), text: string, accent: string)

  /** `Column`: one row per item, in order, numbered from 0. */
  function Column(items: seq<string>): (rows: seq<Row>)
    ensures Texts(rows) == items
    ensures forall i :: 0 <= i < |rows| ==> rows[i].accent == Accent(i) && rows[i].key == (items[i], i)
  {
    MapIndexed(items, (idx: nat, item: string) => Row((item, idx), item, Accent(idx)))
  }

  /** The texts a column shows, top to bottom. */
  function Texts(rows: seq<Row>): (texts: seq<string>)
    ensures |texts| == |rows|
    ensures forall i :: 0 <= i < |rows| ==> texts[i] == rows[i].text
  {
    MapIndexed(rows, (_: nat, row: Row) => row.text)
  }

  /** The two layouts the component can produce. */
  datatype Layout =
    | OneColumn(items: seq<string>)
    | TwoColumns(left: seq<string>, right: seq<string>)

  /** The `columns` prop with its default: 1 when it is not passed. */
  function ColumnsOrDefault(columns: Option<int>): (c: int)
    ensures columns.None? ==> c == 1
    ensures columns.Some? ==> c == columns.value
  {
    columns.GetOr(1)
  }

  /** `Math.ceil(n / 2)`: the least `h` with `2 * h >= n`. */
  function Half(n: nat): (h: nat)
    ensures n <= 2 * h <= n + 1
  {
    (n + 1) / 2
  }

  /** `VerticalTimeline`: with `columns === 2` the items are cut at
      `ceil(n / 2)`, the front going left; any other value, the default
      included, keeps one column of all items. */
  function Arrange(items: seq<string>, columns: Option<int>): (l: Layout)
    ensures l.TwoColumns? <==> ColumnsOrDefault(columns) == 2
    ensures l.OneColumn? ==> l.items == items
    ensures l.TwoColumns? ==> l.left + l.right == items
    ensures l.TwoColumns? ==> |l.left| == Half(|items|) && |l.right| == |items| - Half(|items|)
  {
    if ColumnsOrDefault(columns) == 2 then
      var half := Half(|items|);
      assert items[..half] + items[half..] == items;
      TwoColumns(items[..half], items[half..])
    else
      OneColumn(items)
  }

  /** The left column is as long as the right one or one longer. */
  lemma SplitBalanced(items: seq<string>)
    ensures var l := Arrange(items, Some(2));
            |l.left| == |l.right| || |l.left| == |l.right| + 1
  {
  }

  /** An empty list gives two empty columns, a single item goes left. */
  lemma SplitEdgeCases(item: string)
    ensures Arrange([], Some(2)) == TwoColumns([], [])
    ensures Arrange([item], Some(2)) == TwoColumns([item], [])
  {
    assert [item][..1] == [item];
  }

  /** Without a `columns` prop the items stay in one column, unchanged. */
  lemma DefaultIsOneColumn(items: seq<string>)
    ensures Arrange(items, None) == OneColumn(items)
  {
  }

  /** The rows of each rendered column, left to right. Reading them left to
      right, top to bottom, gives back the items: the layout drops, repeats
      and reorders nothing. */
  function Render(items: seq<string>, columns: Option<int>): (cols: seq<seq<Row>>)
    ensures |cols| == 2 <==> ColumnsOrDefault(columns) == 2
    ensures |cols| == 1 <==> ColumnsOrDefault(columns) != 2
    ensures |cols| == 1 ==> Texts(cols[0]) == items
    ensures |cols| == 2 ==> Texts(cols[0]) + Texts(cols[1]) == items
  {
    match Arrange(items, columns)
    case OneColumn(all) => [Column(all)]
    case TwoColumns(left, right) => [Column(left), Column(right)]
  }

  /** The right column numbers its rows afresh: its row `j` takes accent
      `j`, not the accent of the item's position in the whole list. */
  lemma RightColumnRestarts(items: seq<string>, j: nat)
    requires j < |items| - Half(|items|)
    ensures var cols := Render(items, Some(2));
            |cols| == 2 && j < |cols[1]| && cols[1][j].accent == Accent(j)
            && cols[1][j].text == items[Half(|items|) + j]
  {
  }
}

=== FILE: wrappers.dfy ===
/** Optional values: JavaScript's `number | null` state slots and the
    `undefined` that `Array.prototype.find` returns when nothing matches. */
module Wrappers {

  datatype Option<+T> = None | Some(value: T) {

    /** The value, or `default` when there is none (JavaScript's `x ?? d`
        and, for object values, `x || d`). */
    function GetOr(default: T): (r: T)
      ensures Some? ==> r == value
      ensures None? ==> r == default
    {
      match this
      case Some(v) => v
      case None => default
    }
  }
}
